=== FILE: README.md ===
# Course-management schema as a verified relational store

This project models the domain core of a course-management backend.

- **Schema.** There are eight entities: User, Course, Lesson, Enrollment, Review, Quiz, Question and Answer. Each is declared with its fields, defaults, unique columns and cascading foreign keys.
- **User manager.** `create_user` and `create_superuser` are the validated constructors of the user manager.

The model is an in-memory relational store. Each entity has a table of immutable records keyed by auto-incremented ids, and every operation is a pure function from store to store:

- inserts refuse a foreign key naming a missing parent;
- the user constructors refuse a falsy email, misplaced superuser flags, and a duplicate email or username;
- updates keep every creation stamp;
- delete follows every `on_delete=CASCADE` edge transitively.

The invariants are:

- every id was handed out by its table's counter;
- no foreign key dangles;
- no two users share an email or a username.
- every user row fits the user table's columns: its role reads back as itself, and it is no superuser unless the schema has an `is_superuser` column.

These hold after any sequence of operations, and creation stamps are never rewritten.

Files:

- `entities.dfy` (module `Entities`): records, the `choices` enumerations (`Role`, `Level`, `QuestionType`), the user schema and the row a save writes, values of extra keyword arguments, errors.
- `tables.dfy` (module `Tables`): tables, store, integrity predicates, inserts and updates.
- `cascade.dfy` (module `Cascade`): the cascade closure, `Delete`, and the reference relation `DependsOn` it is proved equal to.
- `usermanager.dfy` (module `UserManager`): model constructor, `create_user`, `create_superuser`.
- `operations.dfy` (module `Operations`): one-step `Apply`, `Run` over a sequence of steps, and the lemmas over whole runs.

The clock is a parameter: every operation that stamps a row takes the reading `now`. A refused operation returns an `Err` and leaves the store as it was.

Two points about `create_superuser` as the code is written:

- It refuses any `is_staff` or `is_superuser` value that is not exactly `True` (`is not True`), so `is_staff=1` is refused too.
- As written it can never store a row; see Findings.

## Model

| member | source | states |
|---|---|---|
| Tables.SaveUser | onset_api/models.py:34-35 | a new user row is stored iff no stored user has its email or its username; a refusal names exactly the clashing columns; on success only the user table grows, by one fresh id, and the invariants are kept |
| Tables.UpdateUser | onset_api/models.py:27-42 | rewriting a user succeeds iff the row exists and no other user has the new email or username; a refusal is NotFound, or NotUnique naming exactly the clashing columns; only the declared columns are written (`AsStored`), so the user table keeps conforming to its schema, and the invariants are kept |
| Tables.InsertCourse | onset_api/models.py:61 | a course is stored iff its instructor exists, else MissingParent("instructor"); only the course table changes, under a fresh id, keeping every invariant |
| Tables.InsertLesson | onset_api/models.py:70 | a lesson is stored iff its course exists, else MissingParent("course"); only the lesson table changes, keeping every invariant |
| Tables.InsertEnrollment | onset_api/models.py:72-77 | an enrollment is stored iff its user and course exist, and the error names exactly the missing ones; the stored row is stamped with the current clock and `completion_status` defaults to false |
| Tables.InsertReview | onset_api/models.py:79-84 | a review is stored iff its user and course exist, and the error names exactly the missing ones; the stored row's `date` is the current clock |
| Tables.InsertQuiz | onset_api/models.py:89 | a quiz is stored iff its course exists; only the quiz table changes, keeping every invariant |
| Tables.InsertQuestion | onset_api/models.py:102 | a question is stored iff its quiz exists; only the question table changes, keeping every invariant |
| Tables.InsertAnswer | onset_api/models.py:104-108 | an answer is stored iff its user and question exist, and the error names exactly the missing ones; its `submission_date` is the current clock |
| Tables.UpdateCourse | onset_api/models.py:49-62 | rewriting a course succeeds iff the row and its new instructor exist; a refusal is NotFound for a missing row, else MissingParent("instructor"); nothing else changes, the table's id counter included, and the invariants are kept |
| Tables.UpdateLesson | onset_api/models.py:64-70 | rewriting a lesson succeeds iff the row and its new course exist; a refusal is NotFound for a missing row, else MissingParent("course"); nothing else changes, the table's id counter included |
| Tables.UpdateEnrollment | onset_api/models.py:72-77 | rewriting an enrollment sets user, course, completion status and grade to the given values and keeps the stored `enrollment_date`; it succeeds iff the row and both parents exist, and a refusal for a present row names exactly the missing parents |
| Tables.UpdateReview | onset_api/models.py:79-84 | rewriting a review sets its editable fields and keeps the stored `date`; it succeeds iff the row and both parents exist, and a refusal for a present row names exactly the missing parents |
| Tables.UpdateQuiz | onset_api/models.py:86-91 | rewriting a quiz succeeds iff the row and its new course exist; a refusal is NotFound for a missing row, else MissingParent("course"); nothing else changes, the table's id counter included |
| Tables.UpdateQuestion | onset_api/models.py:93-102 | rewriting a question succeeds iff the row and its new quiz exist; a refusal is NotFound for a missing row, else MissingParent("quiz"); nothing else changes, the table's id counter included |
| Tables.UpdateAnswer | onset_api/models.py:104-108 | rewriting an answer sets user, question and response and keeps the stored `submission_date`; it succeeds iff the row and both parents exist, and a refusal for a present row names exactly the missing parents |
| Cascade.Delete | onset_api/models.py:61-106 | deleting succeeds iff the row exists (else NotFound), and the deleted row is gone afterwards |
| Cascade.DeleteKeepsInvariant | onset_api/models.py:61-106 | a delete only removes rows and leaves counters and surviving rows unchanged; every foreign key of a surviving row still resolves, and uniqueness is kept |
| Cascade.ClosureIsDependents | onset_api/models.py:61-106 | the closure computed table by table in dependency order contains exactly the rows whose foreign keys lead, edge by edge, to the deleted row |
| Cascade.DeleteRemovesExactlyDependents | onset_api/models.py:61-106 | after a delete, a row is present iff it was present and does not depend on the deleted row, so delete removes the cascade closure and nothing else |
| Cascade.DeleteCourseCascade | onset_api/models.py:70-106 | deleting a course succeeds and removes exactly its lessons, enrollments, reviews and quizzes, the questions of those quizzes and the answers to those questions; users and other courses stay |
| Cascade.DeleteUserCascade | onset_api/models.py:61-105 | deleting a user succeeds and removes the courses they instruct with everything those courses cascade to, plus their own enrollments, reviews and answers; nothing else goes |
| UserManager.SetPassword | onset_api/models.py:12 | a missing password yields an unusable password; a given one is stored hashed, never as the plaintext string |
| UserManager.BuildUser | onset_api/models.py:27-42 | the constructor succeeds iff every extra keyword names a field of the model, every value fits its field and a date of birth is given; the row carries each supplied field, and otherwise the declared default (role student, active, not staff, empty names); a `role` is stored as the text it was given, choice or not |
| UserManager.TextRoleStored | onset_api/models.py:28-40 | a free-text `role` is accepted and stored as given, because `choices` are not checked on save; the stored role is the one its text reads back as, so each of the three choice texts reads back as its choice and never as an unlisted role |
| Entities.RoleOfText | onset_api/models.py:28-40 | reading a `role` column gives a role whose stored text is the column text again, and it is a listed choice iff the text is one of `User.ROLES` |
| Entities.AsStored | onset_api/models.py:27-42 | the row a save writes conforms to the schema's columns: every other attribute is written as given, the role keeps its text, `is_superuser` is written only when the schema has that column, and a conforming instance is written unchanged |
| UserManager.CreateUser | onset_api/models.py:7-14 | a falsy email is refused with EmailRequired; otherwise a row is stored iff the constructor accepts the fields and neither email nor username is taken; the stored row is the one requested, under a fresh id, and every existing user row is left as it was |
| UserManager.SetDefault | onset_api/models.py:17-18 | a flag the caller supplied is kept as given; a missing one is filled in; all other extra fields are untouched |
| UserManager.CreateSuperuser | onset_api/models.py:16-25 | an `is_staff` that is not exactly `True` is refused first, then such an `is_superuser`; a stored superuser carries both flags, is added under a fresh id with every existing user row left as it was, and the invariants are kept |
| UserManager.CreateUserDefaults | onset_api/models.py:40-42 | a user created without overriding extra fields is an active, non-staff student |
| UserManager.SuperuserNeedsEmail | onset_api/models.py:8-25 | once the flags pass, `create_superuser` inherits `create_user`'s refusal of a falsy email |
| UserManager.SuperuserAsDeclaredNeverStored | onset_api/models.py:11-27 | with the declared User model, `create_superuser` never stores a row; once the flag and email checks pass, it fails because the constructor rejects the unexpected `is_superuser` keyword |
| UserManager.SuperuserWithFieldStored | onset_api/models.py:16-25 | with a User model that declares `is_superuser`, every valid request stores the requested user with both flags true |
| Operations.Apply | onset_api/models.py:7-108 | every create, update and delete keeps the store valid and is an evolution: counters only grow, freed ids never come back, and creation stamps are unchanged; every stored user keeps conforming to the user schema |
| Operations.RunKeepsValid | onset_api/models.py:34-106 | after any sequence of operations, no foreign key dangles and no two users share an email or username |
| Operations.RunKeepsCreationDates | onset_api/models.py:75-108 | after any sequence of operations, every enrollment, review and answer still stored has the stamp it was created with |
| Operations.RunKeepsConforming | onset_api/models.py:27-42 | after any sequence of operations every stored user is a row its table can hold: canonical role, and no superuser flag without an `is_superuser` column |
| Operations.NoSuperuserAsDeclared | onset_api/models.py:16-42 | with the declared `User` model, no sequence of operations from the empty store produces a superuser |
| Operations.EvolvesTransitive | onset_api/models.py:75-108 | two evolutions in a row are one evolution: a row present at both ends was present throughout and kept its stamp |
| Operations.FalsyEmailLeavesStore | onset_api/models.py:8-9 | a `create_user` with an absent or empty email leaves the store unchanged |
| Operations.DuplicateLeavesStore | onset_api/models.py:34-35 | creating a user or superuser whose email or username is taken leaves the store unchanged |

## Left out

- The view-set bindings (`onset_api/views.py`) are framework glue with no logic of their own; every operation a view set would call is modelled directly.
- `normalize_email` is library code that is not part of this model. The email is taken as already normalised, and uniqueness compares exact strings.
- Password hashing is abstract. A stored password records which plaintext was hashed (`HashOf`), or that it is `Unusable`. "The stored password differs from the plaintext" therefore holds by type, not by a hashing argument.
- Image uploads (`profile_picture`, `cover_image`) are not stored. The user constructor accepts `profile_picture` and `last_login` and ignores them.
- The `options` JSON of a question is not stored.
- `max_length` limits and decimal precision are not modelled. Decimal amounts are integer hundredths with no digit limit.
- Transactions, isolation and database routing (`using=self._db`) are persistence plumbing and not modelled.
- The source defines no range rules for rating, grade or pass mark, and none are added. Positive-integer fields are `nat`.
- Django does not enforce `choices` on save. The `role` column follows this: a text outside `User.ROLES` is stored as given (`Role.Unlisted`). The `level` of a course and the `type` of a question hold their enumeration datatype, so a free-text value outside those choices cannot be represented for them.
- UserManager.BuildUser: a value of the wrong kind for a typed field is refused with `InvalidValues`. Django would coerce some such values on save, for example `1` for a boolean or a date string. That coercion is not modelled.
- UserManager.BuildUser: a caller-chosen primary key (`id=` among the extra fields) is refused as an unexpected keyword. Ids always come from the table's counter.
- UserManager.CreateUser: the username is always a string. A missing username, which is a NOT NULL failure in the database, is not modelled.
- UserManager.CreateUser: refusals are reported in a fixed order: email, then unexpected keywords, wrong-kind values, missing date of birth, and finally uniqueness. Several violations of one kind are reported together as a set. The order in which a real database reports simultaneous NOT NULL and UNIQUE failures is not modelled.
- Updates rewrite all editable fields at once; a partial update is the same call with the unchanged values.
- A caller cannot supply a creation stamp. On insert, `auto_now_add` overwrites any given value with the clock. On update, the stamp is kept only because `auto_now_add` makes the field non-editable, so forms and serializers leave it out; the modelled updates therefore take the editable fields only.
- Operations.RunKeepsCreationDates: covers the modelled updates of editable fields only. Assigning `enrollment_date`, `date` or `submission_date` directly through the ORM and then calling `save()` would rewrite the stamp; that path is not modelled.
- `Operations.Apply` takes the user schema as a parameter. Its invariants are proved for both the declared and the corrected schema.

## Findings

| source | as written | input that shows it | evidently intended | confidence | as-written member | corrected member |
|---|---|---|---|---|---|---|
| onset_api/models.py:17-27 | `create_superuser` defaults `is_superuser` to `True` and passes it to the `User` constructor, but `User` extends only the base user class and declares no `is_superuser` field, so the constructor refuses the keyword | `create_superuser("a@b.c", "a", "pw", date_of_birth=d)` with no other users: the flag checks pass, then the model constructor raises on `is_superuser` and nothing is stored | the model also declares `is_superuser` (as the permissions mix-in does), so a superuser row is stored with both flags set | not executed; high (the framework's model constructor rejects keyword arguments that name no field or property) | UserManager.SuperuserAsDeclaredNeverStored | UserManager.SuperuserWithFieldStored |

=== FILE: cascade.dfy ===
/**
  Deletion with `on_delete=CASCADE` along every foreign key of the schema.

  `DependsOn` is the reference meaning: a row goes when it is the deleted row
  or one of its foreign keys leads, edge by edge, to the deleted row.
  `Closure` computes that set table by table in the schema's dependency order
  (users, courses, then lessons/enrollments/reviews/quizzes, questions, answers),
  and `Delete` drops it.
 */
module Cascade {
  import opened Entities
  import opened Tables

  /** Position of a table in the dependency order: every foreign key points to
      a table of smaller rank. */
  function Rank(k: Key): nat
  {
    match k
    case UserKey(_) => 0
    case CourseKey(_) => 1
    case LessonKey(_) => 2
    case EnrollmentKey(_) => 2
    case ReviewKey(_) => 2
    case QuizKey(_) => 2
    case QuestionKey(_) => 3
    case AnswerKey(_) => 4
  }

  /** Row `x` is row `k` or reaches it through its foreign keys. */
  predicate DependsOn(s: Store, x: Key, k: Key)
    decreases Rank(x)
  {
    x == k ||
    match x
    case UserKey(_) => false
    case CourseKey(c) =>
      c in s.courses.rows && DependsOn(s, UserKey(s.courses.rows[c].instructor), k)
    case LessonKey(l) =>
      l in s.lessons.rows && DependsOn(s, CourseKey(s.lessons.rows[l].course), k)
    case EnrollmentKey(e) =>
      e in s.enrollments.rows
      && (DependsOn(s, UserKey(s.enrollments.rows[e].user), k)
          || DependsOn(s, CourseKey(s.enrollments.rows[e].course), k))
    case ReviewKey(v) =>
      v in s.reviews.rows
      && (DependsOn(s, UserKey(s.reviews.rows[v].user), k)
          || DependsOn(s, CourseKey(s.reviews.rows[v].course), k))
    case QuizKey(z) =>
      z in s.quizzes.rows && DependsOn(s, CourseKey(s.quizzes.rows[z].course), k)
    case QuestionKey(q) =>
      q in s.questions.rows && DependsOn(s, QuizKey(s.questions.rows[q].quiz), k)
    case AnswerKey(a) =>
      a in s.answers.rows
      && (DependsOn(s, UserKey(s.answers.rows[a].user), k)
          || DependsOn(s, QuestionKey(s.answers.rows[a].question), k))
  }

  /** The ids, per table, that a deletion removes. */
  datatype Doomed = Doomed(
    users: set<Id>,
    courses: set<Id>,
    lessons: set<Id>,
    enrollments: set<Id>,
    reviews: set<Id>,
    quizzes: set<Id>,
    questions: set<Id>,
    answers: set<Id>)

  predicate InDoomed(d: Doomed, x: Key)
  {
    match x
    case UserKey(i) => i in d.users
    case CourseKey(i) => i in d.courses
    case LessonKey(i) => i in d.lessons
    case EnrollmentKey(i) => i in d.enrollments
    case ReviewKey(i) => i in d.reviews
    case QuizKey(i) => i in d.quizzes
    case QuestionKey(i) => i in d.questions
    case AnswerKey(i) => i in d.answers
  }

  /** `{id}` when the deleted row lives in this table, otherwise nothing. */
  function Seed(here: bool, id: Id): set<Id>
  {
    if here then {id} else {}
  }

  /** The cascade closure of deleting `k`, one table at a time in dependency
      order, so each table only looks at tables already settled. */
  function DoomedUsers(k: Key): set<Id>
  {
    Seed(k.UserKey?, k.id)
  }

  function DoomedCourses(s: Store, k: Key): set<Id>
  {
    var users := DoomedUsers(k);
    Seed(k.CourseKey?, k.id) + set c | c in s.courses.rows && s.courses.rows[c].instructor in users
  }

  function DoomedLessons(s: Store, k: Key): set<Id>
  {
    var courses := DoomedCourses(s, k);
    Seed(k.LessonKey?, k.id) + set l | l in s.lessons.rows && s.lessons.rows[l].course in courses
  }

  function DoomedEnrollments(s: Store, k: Key): set<Id>
  {
    var users, courses := DoomedUsers(k), DoomedCourses(s, k);
    Seed(k.EnrollmentKey?, k.id)
    + set e | e in s.enrollments.rows
              && (s.enrollments.rows[e].user in users || s.enrollments.rows[e].course in courses)
  }

  function DoomedReviews(s: Store, k: Key): set<Id>
  {
    var users, courses := DoomedUsers(k), DoomedCourses(s, k);
    Seed(k.ReviewKey?, k.id)
    + set v | v in s.reviews.rows && (s.reviews.rows[v].user in users || s.reviews.rows[v].course in courses)
  }

  function DoomedQuizzes(s: Store, k: Key): set<Id>
  {
    var courses := DoomedCourses(s, k);
    Seed(k.QuizKey?, k.id) + set z | z in s.quizzes.rows && s.quizzes.rows[z].course in courses
  }

  function DoomedQuestions(s: Store, k: Key): set<Id>
  {
    var quizzes := DoomedQuizzes(s, k);
    Seed(k.QuestionKey?, k.id) + set q | q in s.questions.rows && s.questions.rows[q].quiz in quizzes
  }

  function DoomedAnswers(s: Store, k: Key): set<Id>
  {
    var users, questions := DoomedUsers(k), DoomedQuestions(s, k);
    Seed(k.AnswerKey?, k.id)
    + set a | a in s.answers.rows && (s.answers.rows[a].user in users || s.answers.rows[a].question in questions)
  }

  function Closure(s: Store, k: Key): Doomed
  {
    Doomed(DoomedUsers(k), DoomedCourses(s, k), DoomedLessons(s, k), DoomedEnrollments(s, k),
           DoomedReviews(s, k), DoomedQuizzes(s, k), DoomedQuestions(s, k), DoomedAnswers(s, k))
  }

  /** Drops the doomed ids from every table; counters are untouched. */
  function Purge(s: Store, d: Doomed): (r: Store)
    ensures forall x :: Present(r, x) <==> Present(s, x) && !InDoomed(d, x)
  {
    Store(
      Table(s.users.rows - d.users, s.users.next),
      Table(s.courses.rows - d.courses, s.courses.next),
      Table(s.lessons.rows - d.lessons, s.lessons.next),
      Table(s.enrollments.rows - d.enrollments, s.enrollments.next),
      Table(s.reviews.rows - d.reviews, s.reviews.next),
      Table(s.quizzes.rows - d.quizzes, s.quizzes.next),
      Table(s.questions.rows - d.questions, s.questions.next),
      Table(s.answers.rows - d.answers, s.answers.next))
  }

  /** Every row of `s'` is stored unchanged in `s`, and the counters agree. */
  predicate SubStore(s': Store, s: Store)
  {
    && s'.users.rows.Keys <= s.users.rows.Keys && s'.users.next == s.users.next
    && (forall i :: i in s'.users.rows ==> s'.users.rows[i] == s.users.rows[i])
    && s'.courses.rows.Keys <= s.courses.rows.Keys && s'.courses.next == s.courses.next
    && (forall i :: i in s'.courses.rows ==> s'.courses.rows[i] == s.courses.rows[i])
    && s'.lessons.rows.Keys <= s.lessons.rows.Keys && s'.lessons.next == s.lessons.next
    && (forall i :: i in s'.lessons.rows ==> s'.lessons.rows[i] == s.lessons.rows[i])
    && s'.enrollments.rows.Keys <= s.enrollments.rows.Keys && s'.enrollments.next == s.enrollments.next
    && (forall i :: i in s'.enrollments.rows ==> s'.enrollments.rows[i] == s.enrollments.rows[i])
    && s'.reviews.rows.Keys <= s.reviews.rows.Keys && s'.reviews.next == s.reviews.next
    && (forall i :: i in s'.reviews.rows ==> s'.reviews.rows[i] == s.reviews.rows[i])
    && s'.quizzes.rows.Keys <= s.quizzes.rows.Keys && s'.quizzes.next == s.quizzes.next
    && (forall i :: i in s'.quizzes.rows ==> s'.quizzes.rows[i] == s.quizzes.rows[i])
    && s'.questions.rows.Keys <= s.questions.rows.Keys && s'.questions.next == s.questions.next
    && (forall i :: i in s'.questions.rows ==> s'.questions.rows[i] == s.questions.rows[i])
    && s'.answers.rows.Keys <= s.answers.rows.Keys && s'.answers.next == s.answers.next
    && (forall i :: i in s'.answers.rows ==> s'.answers.rows[i] == s.answers.rows[i])
  }

  /** Deletes row `k` and, transitively, every row whose foreign keys lead to it. */
  function Delete(s: Store, k: Key): (r: Result<Store>)
    ensures r.Ok? <==> Present(s, k)
    ensures r.Err? ==> r.error == NotFound
    ensures r.Ok? ==> !Present(r.value, k)
  {
    if !Present(s, k) then Err(NotFound) else Ok(Purge(s, Closure(s, k)))
  }

  /** A delete only removes rows, leaves the counters alone, leaves no dangling
      foreign key and keeps the other invariants. */
  lemma DeleteKeepsInvariant(s: Store, k: Key)
    ensures Delete(s, k).Ok? ==> SubStore(Delete(s, k).value, s)
    ensures Delete(s, k).Ok? && Valid(s) ==> Valid(Delete(s, k).value) && Evolves(s, Delete(s, k).value)
  {
  }

  lemma UserDoomedIffDependent(s: Store, k: Key, u: Id)
    ensures u in DoomedUsers(k) <==> DependsOn(s, UserKey(u), k)
  {
  }

  lemma CourseDoomedIffDependent(s: Store, k: Key, c: Id)
    ensures c in DoomedCourses(s, k) <==> DependsOn(s, CourseKey(c), k)
  {
    if c in s.courses.rows {
      UserDoomedIffDependent(s, k, s.courses.rows[c].instructor);
    }
  }

  lemma QuizDoomedIffDependent(s: Store, k: Key, z: Id)
    ensures z in DoomedQuizzes(s, k) <==> DependsOn(s, QuizKey(z), k)
  {
    if z in s.quizzes.rows {
      CourseDoomedIffDependent(s, k, s.quizzes.rows[z].course);
    }
  }

  lemma QuestionDoomedIffDependent(s: Store, k: Key, q: Id)
    ensures q in DoomedQuestions(s, k) <==> DependsOn(s, QuestionKey(q), k)
  {
    if q in s.questions.rows {
      QuizDoomedIffDependent(s, k, s.questions.rows[q].quiz);
    }
  }

  lemma LessonDoomedIffDependent(s: Store, k: Key, l: Id)
    ensures l in DoomedLessons(s, k) <==> DependsOn(s, LessonKey(l), k)
  {
    if l in s.lessons.rows {
      CourseDoomedIffDependent(s, k, s.lessons.rows[l].course);
    }
  }

  lemma EnrollmentDoomedIffDependent(s: Store, k: Key, e: Id)
    ensures e in DoomedEnrollments(s, k) <==> DependsOn(s, EnrollmentKey(e), k)
  {
    if e in s.enrollments.rows {
      UserDoomedIffDependent(s, k, s.enrollments.rows[e].user);
      CourseDoomedIffDependent(s, k, s.enrollments.rows[e].course);
    }
  }

  lemma ReviewDoomedIffDependent(s: Store, k: Key, v: Id)
    ensures v in DoomedReviews(s, k) <==> DependsOn(s, ReviewKey(v), k)
  {
    if v in s.reviews.rows {
      UserDoomedIffDependent(s, k, s.reviews.rows[v].user);
      CourseDoomedIffDependent(s, k, s.reviews.rows[v].course);
    }
  }

  lemma AnswerDoomedIffDependent(s: Store, k: Key, a: Id)
    ensures a in DoomedAnswers(s, k) <==> DependsOn(s, AnswerKey(a), k)
  {
    if a in s.answers.rows {
      UserDoomedIffDependent(s, k, s.answers.rows[a].user);
      QuestionDoomedIffDependent(s, k, s.answers.rows[a].question);
    }
  }

  /** The computed closure is exactly the set of rows that depend on `k`. */
  lemma ClosureIsDependents(s: Store, k: Key, x: Key)
    ensures InDoomed(Closure(s, k), x) <==> DependsOn(s, x, k)
  {
    match x
    case UserKey(u) => UserDoomedIffDependent(s, k, u);
    case CourseKey(c) => CourseDoomedIffDependent(s, k, c);
    case LessonKey(l) => LessonDoomedIffDependent(s, k, l);
    case EnrollmentKey(e) => EnrollmentDoomedIffDependent(s, k, e);
    case ReviewKey(v) => ReviewDoomedIffDependent(s, k, v);
    case QuizKey(z) => QuizDoomedIffDependent(s, k, z);
    case QuestionKey(q) => QuestionDoomedIffDependent(s, k, q);
    case AnswerKey(a) => AnswerDoomedIffDependent(s, k, a);
  }

  /** Deleting `k` removes exactly the rows that depend on it, and nothing else. */
  lemma DeleteRemovesExactlyDependents(s: Store, k: Key, x: Key)
    requires Present(s, k)
    ensures Delete(s, k).Ok?
    ensures Present(Delete(s, k).value, x) <==> Present(s, x) && !DependsOn(s, x, k)
  {
    ClosureIsDependents(s, k, x);
  }

  /** One layer of the closure for one row: a row of a table other than the
      deleted key's is doomed iff one of its parents is. */
  lemma CourseDoomedStep(s: Store, k: Key, c: Id)
    requires c in s.courses.rows && !k.CourseKey?
    ensures c in DoomedCourses(s, k) <==> s.courses.rows[c].instructor in DoomedUsers(k)
  {
  }

  lemma EnrollmentDoomedStep(s: Store, k: Key, e: Id)
    requires e in s.enrollments.rows && !k.EnrollmentKey?
    ensures e in DoomedEnrollments(s, k) <==>
              s.enrollments.rows[e].user in DoomedUsers(k) || s.enrollments.rows[e].course in DoomedCourses(s, k)
  {
  }

  lemma ReviewDoomedStep(s: Store, k: Key, v: Id)
    requires v in s.reviews.rows && !k.ReviewKey?
    ensures v in DoomedReviews(s, k) <==>
              s.reviews.rows[v].user in DoomedUsers(k) || s.reviews.rows[v].course in DoomedCourses(s, k)
  {
  }

  lemma QuizDoomedStep(s: Store, k: Key, z: Id)
    requires z in s.quizzes.rows && !k.QuizKey?
    ensures z in DoomedQuizzes(s, k) <==> s.quizzes.rows[z].course in DoomedCourses(s, k)
  {
  }

  lemma QuestionDoomedStep(s: Store, k: Key, q: Id)
    requires q in s.questions.rows && !k.QuestionKey?
    ensures q in DoomedQuestions(s, k) <==> s.questions.rows[q].quiz in DoomedQuizzes(s, k)
  {
  }

  lemma AnswerDoomedStep(s: Store, k: Key, a: Id)
    requires a in s.answers.rows && !k.AnswerKey?
    ensures a in DoomedAnswers(s, k) <==>
              s.answers.rows[a].user in DoomedUsers(k) || s.answers.rows[a].question in DoomedQuestions(s, k)
  {
  }

  /** `s'` is `s` after a course `c` went with its cascade: its lessons,
      enrollments, reviews and quizzes, the questions of those quizzes and the
      answers to those questions are gone; every user and every other row stays. */
  predicate CourseCascaded(s: Store, s': Store, c: Id)
    requires Valid(s)
  {
    CourseChildrenGone(s, s', c) && CourseQuizzesGone(s, s', c)
  }

  /** Users stay; the course goes, and with it its direct children. */
  predicate CourseChildrenGone(s: Store, s': Store, c: Id)
  {
    && s'.users.rows == s.users.rows
    && (forall x :: x in s.courses.rows ==> (x in s'.courses.rows <==> x != c))
    && (forall l :: l in s.lessons.rows ==> (l in s'.lessons.rows <==> s.lessons.rows[l].course != c))
    && (forall e :: e in s.enrollments.rows ==>
          (e in s'.enrollments.rows <==> s.enrollments.rows[e].course != c))
    && (forall v :: v in s.reviews.rows ==> (v in s'.reviews.rows <==> s.reviews.rows[v].course != c))
  }

  /** The course's quizzes go, with their questions and those questions' answers. */
  predicate CourseQuizzesGone(s: Store, s': Store, c: Id)
    requires Valid(s)
  {
    && (forall z :: z in s.quizzes.rows ==> (z in s'.quizzes.rows <==> s.quizzes.rows[z].course != c))
    && (forall q :: q in s.questions.rows ==>
          (q in s'.questions.rows <==> s.quizzes.rows[s.questions.rows[q].quiz].course != c))
    && (forall a :: a in s.answers.rows ==>
          (a in s'.answers.rows <==>
             s.quizzes.rows[s.questions.rows[s.answers.rows[a].question].quiz].course != c))
  }

  /** `s'` is `s` after a user `u` went with its cascade: the courses they
      instruct with everything those courses cascade to, and their own
      enrollments, reviews and answers, are gone; every other row stays. */
  predicate UserCascaded(s: Store, s': Store, u: Id)
    requires Valid(s)
  {
    UserCoursesGone(s, s', u) && UserOwnRowsGone(s, s', u)
  }

  /** The courses the user instructs go, with their lessons, quizzes and
      those quizzes' questions. */
  predicate UserCoursesGone(s: Store, s': Store, u: Id)
    requires Valid(s)
  {
    && (forall c :: c in s.courses.rows ==> (c in s'.courses.rows <==> s.courses.rows[c].instructor != u))
    && (forall l :: l in s.lessons.rows ==>
          (l in s'.lessons.rows <==> s.courses.rows[s.lessons.rows[l].course].instructor != u))
    && (forall z :: z in s.quizzes.rows ==>
          (z in s'.quizzes.rows <==> s.courses.rows[s.quizzes.rows[z].course].instructor != u))
    && (forall q :: q in s.questions.rows ==>
          (q in s'.questions.rows <==>
             s.courses.rows[s.quizzes.rows[s.questions.rows[q].quiz].course].instructor != u))
  }

  /** The user goes, and so does every enrollment, review and answer that is
      theirs or hangs off a course they instruct. */
  predicate UserOwnRowsGone(s: Store, s': Store, u: Id)
    requires Valid(s)
  {
    && (forall x :: x in s.users.rows ==> (x in s'.users.rows <==> x != u))
    && (forall e :: e in s.enrollments.rows ==>
          (e in s'.enrollments.rows <==>
             s.enrollments.rows[e].user != u && s.courses.rows[s.enrollments.rows[e].course].instructor != u))
    && (forall v :: v in s.reviews.rows ==>
          (v in s'.reviews.rows <==>
             s.reviews.rows[v].user != u && s.courses.rows[s.reviews.rows[v].course].instructor != u))
    && (forall a :: a in s.answers.rows ==>
          (a in s'.answers.rows <==>
             s.answers.rows[a].user != u
             && s.courses.rows[s.quizzes.rows[s.questions.rows[s.answers.rows[a].question].quiz].course].instructor != u))
  }

  lemma PurgeCourseChildren(s: Store, c: Id)
    requires Valid(s) && c in s.courses.rows
    ensures CourseChildrenGone(s, Purge(s, Closure(s, CourseKey(c))), c)
  {
  }

  lemma PurgeCourseQuizzes(s: Store, c: Id)
    requires Valid(s) && c in s.courses.rows
    ensures CourseQuizzesGone(s, Purge(s, Closure(s, CourseKey(c))), c)
  {
    var k := CourseKey(c);
    var s' := Purge(s, Closure(s, k));
    forall z | z in s.quizzes.rows
      ensures z in s'.quizzes.rows <==> s.quizzes.rows[z].course != c
    {
      QuizDoomedStep(s, k, z);
    }
    forall q | q in s.questions.rows
      ensures q in s'.questions.rows <==> s.quizzes.rows[s.questions.rows[q].quiz].course != c
    {
      QuestionDoomedStep(s, k, q);
      QuizDoomedStep(s, k, s.questions.rows[q].quiz);
    }
    forall a | a in s.answers.rows
      ensures a in s'.answers.rows <==>
                s.quizzes.rows[s.questions.rows[s.answers.rows[a].question].quiz].course != c
    {
      var q := s.answers.rows[a].question;
      AnswerDoomedStep(s, k, a);
      QuestionDoomedStep(s, k, q);
      QuizDoomedStep(s, k, s.questions.rows[q].quiz);
    }
  }

  /** Deleting a course removes exactly its cascade. */
  lemma DeleteCourseCascade(s: Store, c: Id)
    requires Valid(s) && c in s.courses.rows
    ensures Delete(s, CourseKey(c)).Ok?
    ensures CourseCascaded(s, Delete(s, CourseKey(c)).value, c)
  {
    PurgeCourseChildren(s, c);
    PurgeCourseQuizzes(s, c);
  }

  lemma PurgeUserCourses(s: Store, u: Id)
    requires Valid(s) && u in s.users.rows
    ensures UserCoursesGone(s, Purge(s, Closure(s, UserKey(u))), u)
  {
  }

  lemma PurgeUserOwnRows(s: Store, u: Id)
    requires Valid(s) && u in s.users.rows
    ensures UserOwnRowsGone(s, Purge(s, Closure(s, UserKey(u))), u)
  {
    var k := UserKey(u);
    var s' := Purge(s, Closure(s, k));
    forall e | e in s.enrollments.rows
      ensures e in s'.enrollments.rows <==>
                s.enrollments.rows[e].user != u && s.courses.rows[s.enrollments.rows[e].course].instructor != u
    {
      EnrollmentDoomedStep(s, k, e);
      CourseDoomedStep(s, k, s.enrollments.rows[e].course);
    }
    forall v | v in s.reviews.rows
      ensures v in s'.reviews.rows <==>
                s.reviews.rows[v].user != u && s.courses.rows[s.reviews.rows[v].course].instructor != u
    {
      ReviewDoomedStep(s, k, v);
      CourseDoomedStep(s, k, s.reviews.rows[v].course);
    }
    forall a | a in s.answers.rows
      ensures a in s'.answers.rows <==>
                s.answers.rows[a].user != u
                && s.courses.rows[s.quizzes.rows[s.questions.rows[s.answers.rows[a].question].quiz].course].instructor != u
    {
      var q := s.answers.rows[a].question;
      var z := s.questions.rows[q].quiz;
      AnswerDoomedStep(s, k, a);
      QuestionDoomedStep(s, k, q);
      QuizDoomedStep(s, k, z);
      CourseDoomedStep(s, k, s.quizzes.rows[z].course);
    }
  }

  /** Deleting a user removes exactly their cascade. */
  lemma DeleteUserCascade(s: Store, u: Id)
    requires Valid(s) && u in s.users.rows
    ensures Delete(s, UserKey(u)).Ok?
    ensures UserCascaded(s, Delete(s, UserKey(u)).value, u)
  {
    PurgeUserCourses(s, u);
    PurgeUserOwnRows(s, u);
  }
}

=== FILE: entities.dfy ===
/**
  The records of the course-management schema: one datatype per model class,
  the enumerated `choices` as datatypes, and the error outcomes of the user
  manager and of the persistence layer.
 */
module Entities {

  /** Primary keys are auto-incremented positive integers. */
  type Id = nat

  /** A clock reading, supplied by the caller of every operation that stamps a record. */
  type Timestamp = int

  /** A calendar date (for `date_of_birth`), as a day number. */
  type Date = int

  /** A two-decimal-place amount (`enrollment_fee`, `grade`, `pass_mark`) in hundredths. */
  type Cents = int

  datatype Option<+T> = None | Some(value: T)

  /** The `role` column: one of `User.ROLES` (default `Student`), or any other
      text, which is stored as given because `choices` are not checked on save. */
  datatype Role = Student | Instructor | Admin | Unlisted(text: string)

  /** The stored values of `User.ROLES`. */
  const RoleChoices: set<string> := {"student", "instructor", "admin"}

  /** A role as it is read back from its column: `Unlisted` never holds a choice. */
  predicate CanonicalRole(r: Role)
  {
    r.Unlisted? ==> r.text !in RoleChoices
  }

  /** The text a role is stored as. */
  function RoleText(r: Role): (t: string)
    ensures t in RoleChoices <==> !r.Unlisted? || r.text in RoleChoices
  {
    match r
    case Student => "student"
    case Instructor => "instructor"
    case Admin => "admin"
    case Unlisted(t) => t
  }

  /** The role a stored column text reads back as; storing it gives the text back. */
  function RoleOfText(t: string): (r: Role)
    ensures CanonicalRole(r)
    ensures RoleText(r) == t
    ensures r.Unlisted? <==> t !in RoleChoices
  {
    if t == "student" then Student
    else if t == "instructor" then Instructor
    else if t == "admin" then Admin
    else Unlisted(t)
  }

  /** Reading back a stored role gives the role, for every canonical role. */
  lemma RoleRoundTrip(r: Role)
    requires CanonicalRole(r)
    ensures RoleOfText(RoleText(r)) == r
  {
  }

  /** `Course.LEVELS`. */
  datatype Level = Beginner | Intermediate | Advanced

  /** `Question.TYPE_CHOICES`. */
  datatype QuestionType = MultipleChoice | TrueFalse

  /** The stored password: hashing itself is abstract, the model only records
      which plaintext was hashed, or that no usable password was set. */
  datatype Password = Unusable | HashOf(plain: string)

  /** A value passed as an extra keyword argument to the user manager. */
  datatype Value =
    | NoneValue
    | BoolValue(b: bool)
    | IntValue(i: int)
    | TextValue(s: string)
    | DateValue(date: Date)
    | RoleValue(role: Role)

  /** `isSuperuser` can only hold true under a schema that declares such a
      column (`Conforms`); the declared `User` model has none. */
  datatype User = User(
    username: string,
    email: string,
    password: Password,
    firstName: string,
    lastName: string,
    dateOfBirth: Date,
    role: Role,
    isActive: bool,
    isStaff: bool,
    isSuperuser: bool)

  /** Whether the `User` model declares an `is_superuser` column. As declared
      it does not (the model extends only the base user class);
      `WithSuperuserField` is the schema in which it does. */
  datatype UserSchema = AsDeclared | WithSuperuserField

  /** `u` is a row the user table of `schema` can hold: its role reads back
      from its column text as itself, and without an `is_superuser` column
      the flag is false. */
  predicate Conforms(schema: UserSchema, u: User)
  {
    CanonicalRole(u.role) && (schema == AsDeclared ==> !u.isSuperuser)
  }

  /** The row that saving the instance `u` writes: the role column holds its
      text, which reads back canonically, and an attribute with no column
      behind it (`is_superuser` as declared) is not written. */
  function AsStored(schema: UserSchema, u: User): (r: User)
    ensures Conforms(schema, r)
    ensures Conforms(schema, u) ==> r == u
    ensures r == u.(role := r.role, isSuperuser := r.isSuperuser)
    ensures RoleText(r.role) == RoleText(u.role)
    ensures schema == WithSuperuserField ==> r.isSuperuser == u.isSuperuser
  {
    u.(role := RoleOfText(RoleText(u.role)),
       isSuperuser := schema == WithSuperuserField && u.isSuperuser)
  }

  datatype Course = Course(
    title: string,
    description: string,
    duration: nat,
    level: Level,
    category: string,
    instructor: Id,
    enrollmentFee: Cents)

  datatype Lesson = Lesson(
    title: string,
    description: string,
    content: string,
    duration: nat,
    sequenceNumber: nat,
    course: Id)

  /** `enrollmentDate` is stamped once, when the row is inserted. */
  datatype Enrollment = Enrollment(
    user: Id,
    course: Id,
    enrollmentDate: Timestamp,
    completionStatus: bool,
    grade: Option<Cents>)

  /** `date` is stamped once, when the row is inserted. */
  datatype Review = Review(
    user: Id,
    course: Id,
    rating: nat,
    comment: string,
    date: Timestamp)

  datatype Quiz = Quiz(
    title: string,
    description: string,
    course: Id,
    passMark: Cents,
    duration: nat)

  /** The JSON `options` payload is not part of the model. */
  datatype Question = Question(
    text: string,
    kind: QuestionType,
    correctAnswer: string,
    quiz: Id)

  /** `submissionDate` is stamped once, when the row is inserted. */
  datatype Answer = Answer(
    user: Id,
    question: Id,
    response: string,
    submissionDate: Timestamp)

  datatype Error =
      /** `create_user` was given a falsy email. */
    | EmailRequired
      /** `create_superuser` was given an `is_staff` that is not `True`. */
    | StaffFlagRequired
      /** `create_superuser` was given an `is_superuser` that is not `True`. */
    | SuperuserFlagRequired
      /** The model constructor was given keyword arguments naming no field. */
    | UnexpectedKeywords(names: set<string>)
      /** Extra fields whose value is not of the field's kind. */
    | InvalidValues(names: set<string>)
      /** A required column was left without a value. */
    | NotNull(field: string)
      /** A unique column already holds the value in another row. */
    | NotUnique(fields: set<string>)
      /** Foreign keys naming rows that do not exist. */
    | MissingParent(fields: set<string>)
      /** The addressed row does not exist. */
    | NotFound

  datatype Result<+T> = Ok(value: T) | Err(error: Error)
}

=== FILE: operations.dfy ===
/**
  The store as a sequential state machine: every create, update and delete
  the schema supports is one step, a refused step leaves the store as it was,
  and the invariants (ids from the counters, no dangling foreign key, unique
  email and username) hold after any sequence of steps. Creation stamps are
  never rewritten.
 */
module Operations {
  import opened Entities
  import opened Tables
  import opened Cascade
  import opened UserManager

  datatype Op =
    | CreateUserOp(email: Option<string>, username: string, password: Option<string>, extras: map<string, Value>)
    | CreateSuperuserOp(email: Option<string>, username: string, password: Option<string>, extras: map<string, Value>)
    | AddCourse(courseRow: Course)
    | AddLesson(lessonRow: Lesson)
    | AddEnrollment(user: Id, course: Id, completionStatus: Option<bool>, grade: Option<Cents>)
    | AddReview(user: Id, course: Id, rating: nat, comment: string)
    | AddQuiz(quizRow: Quiz)
    | AddQuestion(questionRow: Question)
    | AddAnswer(user: Id, question: Id, response: string)
    | EditUser(id: Id, userRow: User)
    | EditCourse(id: Id, courseRow: Course)
    | EditLesson(id: Id, lessonRow: Lesson)
    | EditEnrollment(id: Id, user: Id, course: Id, completed: bool, grade: Option<Cents>)
    | EditReview(id: Id, user: Id, course: Id, rating: nat, comment: string)
    | EditQuiz(id: Id, quizRow: Quiz)
    | EditQuestion(id: Id, questionRow: Question)
    | EditAnswer(id: Id, user: Id, question: Id, response: string)
    | Remove(key: Key)

  /** One operation at clock reading `now`. */
  datatype Step = Step(op: Op, now: Timestamp)

  function AfterInsert(r: Result<(Store, Id)>, s: Store): Store
  {
    match r
    case Ok((s', _)) => s'
    case Err(_) => s
  }

  function AfterChange(r: Result<Store>, s: Store): Store
  {
    match r
    case Ok(s') => s'
    case Err(_) => s
  }

  /** The store after `op`; a refused operation leaves it unchanged. */
  function Apply(schema: UserSchema, s: Store, op: Op, now: Timestamp): (s': Store)
    ensures Valid(s) ==> Valid(s') && Evolves(s, s')
    ensures Valid(s) && UsersConform(schema, s.users.rows) ==> UsersConform(schema, s'.users.rows)
  {
    match op
    case CreateUserOp(email, username, password, extras) =>
      AfterInsert(CreateUser(schema, s, email, username, password, extras), s)
    case CreateSuperuserOp(email, username, password, extras) =>
      AfterInsert(CreateSuperuser(schema, s, email, username, password, extras), s)
    case AddCourse(c) => AfterInsert(InsertCourse(s, c), s)
    case AddLesson(l) => AfterInsert(InsertLesson(s, l), s)
    case AddEnrollment(user, course, done, grade) =>
      AfterInsert(InsertEnrollment(s, user, course, done, grade, now), s)
    case AddReview(user, course, rating, comment) =>
      AfterInsert(InsertReview(s, user, course, rating, comment, now), s)
    case AddQuiz(z) => AfterInsert(InsertQuiz(s, z), s)
    case AddQuestion(q) => AfterInsert(InsertQuestion(s, q), s)
    case AddAnswer(user, question, response) =>
      AfterInsert(InsertAnswer(s, user, question, response, now), s)
    case EditUser(id, u) => AfterChange(UpdateUser(schema, s, id, u), s)
    case EditCourse(id, c) => AfterChange(UpdateCourse(s, id, c), s)
    case EditLesson(id, l) => AfterChange(UpdateLesson(s, id, l), s)
    case EditEnrollment(id, user, course, done, grade) =>
      AfterChange(UpdateEnrollment(s, id, user, course, done, grade), s)
    case EditReview(id, user, course, rating, comment) =>
      AfterChange(UpdateReview(s, id, user, course, rating, comment), s)
    case EditQuiz(id, z) => AfterChange(UpdateQuiz(s, id, z), s)
    case EditQuestion(id, q) => AfterChange(UpdateQuestion(s, id, q), s)
    case EditAnswer(id, user, question, response) =>
      AfterChange(UpdateAnswer(s, id, user, question, response), s)
    case Remove(k) => DeleteKeepsInvariant(s, k); AfterChange(Delete(s, k), s)
  }

  /** The store after each step in turn. */
  function Run(schema: UserSchema, s: Store, steps: seq<Step>): Store
    decreases |steps|
  {
    if |steps| == 0 then s
    else Run(schema, Apply(schema, s, steps[0].op, steps[0].now), steps[1..])
  }

  /** Evolution composes: ids that are gone stay gone, so a row present at both
      ends was present throughout and kept its creation stamp. */
  lemma EvolvesTransitive(s1: Store, s2: Store, s3: Store)
    requires TablesOk(s1) && Evolves(s1, s2) && Evolves(s2, s3)
    ensures Evolves(s1, s3)
  {
    assert forall e :: e in s1.enrollments.rows ==> e < s2.enrollments.next;
    assert forall v :: v in s1.reviews.rows ==> v < s2.reviews.next;
    assert forall a :: a in s1.answers.rows ==> a < s2.answers.next;
  }

  /** No dangling foreign key and no duplicate email or username after any
      sequence of operations. */
  lemma {:induction false} RunKeepsValid(schema: UserSchema, s: Store, steps: seq<Step>)
    requires Valid(s)
    ensures Valid(Run(schema, s, steps))
    decreases |steps|
  {
    if |steps| > 0 {
      RunKeepsValid(schema, Apply(schema, s, steps[0].op, steps[0].now), steps[1..]);
    }
  }

  /** Every stored user stays a row the user table can hold after any
      sequence of operations: roles read back as themselves, and without an
      `is_superuser` column no user is a superuser. */
  lemma {:induction false} RunKeepsConforming(schema: UserSchema, s: Store, steps: seq<Step>)
    requires Valid(s) && UsersConform(schema, s.users.rows)
    ensures UsersConform(schema, Run(schema, s, steps).users.rows)
    decreases |steps|
  {
    if |steps| > 0 {
      RunKeepsConforming(schema, Apply(schema, s, steps[0].op, steps[0].now), steps[1..]);
    }
  }

  /** With the declared `User` model, no sequence of operations starting from
      the empty store ever yields a superuser. */
  lemma NoSuperuserAsDeclared(steps: seq<Step>)
    ensures var users := Run(AsDeclared, Empty, steps).users.rows;
            forall id :: id in users ==> !users[id].isSuperuser
  {
    EmptyIsValid();
    RunKeepsConforming(AsDeclared, Empty, steps);
  }

  /** Creation stamps are write-once: after any sequence of operations, every
      enrollment, review and answer still stored carries the date it had. */
  lemma {:induction false} RunKeepsCreationDates(schema: UserSchema, s: Store, steps: seq<Step>)
    requires Valid(s)
    ensures Evolves(s, Run(schema, s, steps))
    decreases |steps|
  {
    if |steps| == 0 {
    } else {
      var s1 := Apply(schema, s, steps[0].op, steps[0].now);
      RunKeepsCreationDates(schema, s1, steps[1..]);
      EvolvesTransitive(s, s1, Run(schema, s1, steps[1..]));
    }
  }

  /** A refused `create_user` (here: a falsy email) leaves the store unchanged. */
  lemma FalsyEmailLeavesStore(schema: UserSchema, s: Store, email: Option<string>, username: string,
                              password: Option<string>, extras: map<string, Value>, now: Timestamp)
    requires Falsy(email)
    ensures Apply(schema, s, CreateUserOp(email, username, password, extras), now) == s
  {
  }

  /** A duplicate email or username is refused and leaves the store unchanged. */
  lemma DuplicateLeavesStore(schema: UserSchema, s: Store, email: Option<string>, username: string,
                             password: Option<string>, extras: map<string, Value>, now: Timestamp, other: Id)
    requires other in s.users.rows
    requires email == Some(s.users.rows[other].email) || username == s.users.rows[other].username
    ensures Apply(schema, s, CreateUserOp(email, username, password, extras), now) == s
    ensures Apply(schema, s, CreateSuperuserOp(email, username, password, extras), now) == s
  {
  }
}

=== FILE: tables.dfy ===
/**
  The in-memory relational store: eight tables keyed by auto-incremented ids,
  the integrity rules the schema declares (foreign keys, unique user columns),
  and the inserts and updates that keep them.
 */
module Tables {
  import opened Entities

  /** One table: its rows and the next id its counter hands out. Ids are never
      reused, so a deleted id stays absent for good. */
  datatype Table<T> = Table(rows: map<Id, T>, next: Id)

  /** Every stored id was handed out by the counter. */
  predicate TableOk<T>(t: Table<T>)
  {
    forall k :: k in t.rows ==> k < t.next
  }

  /** From `t` to `t'` the counter only grows and no id that was free below the
      old counter reappears. */
  predicate TableEvolves<T>(t: Table<T>, t': Table<T>)
  {
    && t.next <= t'.next
    && forall k :: k in t'.rows && k < t.next ==> k in t.rows
  }

  /** `t'` holds the rows of `t` plus `x` under an id that was free. */
  predicate Inserted<T(==)>(t: Table<T>, t': Table<T>, id: Id, x: T)
  {
    && id !in t.rows
    && t'.rows == t.rows[id := x]
  }

  /** Stores `x` under the counter's id and advances the counter. */
  function Add<T(==)>(t: Table<T>, x: T): (r: (Table<T>, Id))
    ensures TableOk(t) ==> Inserted(t, r.0, r.1, x) && TableOk(r.0) && TableEvolves(t, r.0)
  {
    (Table(t.rows[t.next := x], t.next + 1), t.next)
  }

  /** Replaces the row stored under `id`. */
  function Put<T>(t: Table<T>, id: Id, x: T): (r: Table<T>)
    requires id in t.rows
    ensures r.rows.Keys == t.rows.Keys && r.rows[id] == x
    ensures forall k :: k in t.rows && k != id ==> r.rows[k] == t.rows[k]
    ensures TableOk(t) ==> TableOk(r) && TableEvolves(t, r)
  {
    Table(t.rows[id := x], t.next)
  }

  datatype Store = Store(
    users: Table<User>,
    courses: Table<Course>,
    lessons: Table<Lesson>,
    enrollments: Table<Enrollment>,
    reviews: Table<Review>,
    quizzes: Table<Quiz>,
    questions: Table<Question>,
    answers: Table<Answer>)

  /** The store with no rows; every counter starts at 1. */
  const Empty: Store :=
    Store(Table(map[], 1), Table(map[], 1), Table(map[], 1), Table(map[], 1),
          Table(map[], 1), Table(map[], 1), Table(map[], 1), Table(map[], 1))

  /** A row address: which table, which id. */
  datatype Key =
    | UserKey(id: Id)
    | CourseKey(id: Id)
    | LessonKey(id: Id)
    | EnrollmentKey(id: Id)
    | ReviewKey(id: Id)
    | QuizKey(id: Id)
    | QuestionKey(id: Id)
    | AnswerKey(id: Id)

  predicate Present(s: Store, k: Key)
  {
    match k
    case UserKey(i) => i in s.users.rows
    case CourseKey(i) => i in s.courses.rows
    case LessonKey(i) => i in s.lessons.rows
    case EnrollmentKey(i) => i in s.enrollments.rows
    case ReviewKey(i) => i in s.reviews.rows
    case QuizKey(i) => i in s.quizzes.rows
    case QuestionKey(i) => i in s.questions.rows
    case AnswerKey(i) => i in s.answers.rows
  }

  predicate TablesOk(s: Store)
  {
    && TableOk(s.users) && TableOk(s.courses) && TableOk(s.lessons) && TableOk(s.enrollments)
    && TableOk(s.reviews) && TableOk(s.quizzes) && TableOk(s.questions) && TableOk(s.answers)
  }

  /** Every course's instructor exists. */
  predicate CoursesLinked(courses: map<Id, Course>, users: map<Id, User>)
  {
    forall c :: c in courses ==> courses[c].instructor in users
  }

  /** Every lesson's course exists. */
  predicate LessonsLinked(lessons: map<Id, Lesson>, courses: map<Id, Course>)
  {
    forall l :: l in lessons ==> lessons[l].course in courses
  }

  /** Every enrollment's user and course exist. */
  predicate EnrollmentsLinked(enrollments: map<Id, Enrollment>, users: map<Id, User>, courses: map<Id, Course>)
  {
    forall e :: e in enrollments ==> enrollments[e].user in users && enrollments[e].course in courses
  }

  /** Every review's user and course exist. */
  predicate ReviewsLinked(reviews: map<Id, Review>, users: map<Id, User>, courses: map<Id, Course>)
  {
    forall v :: v in reviews ==> reviews[v].user in users && reviews[v].course in courses
  }

  /** Every quiz's course exists. */
  predicate QuizzesLinked(quizzes: map<Id, Quiz>, courses: map<Id, Course>)
  {
    forall z :: z in quizzes ==> quizzes[z].course in courses
  }

  /** Every question's quiz exists. */
  predicate QuestionsLinked(questions: map<Id, Question>, quizzes: map<Id, Quiz>)
  {
    forall q :: q in questions ==> questions[q].quiz in quizzes
  }

  /** Every answer's user and question exist. */
  predicate AnswersLinked(answers: map<Id, Answer>, users: map<Id, User>, questions: map<Id, Question>)
  {
    forall a :: a in answers ==> answers[a].user in users && answers[a].question in questions
  }

  /** Every foreign key of every row names an existing row. */
  predicate RefIntegrity(s: Store)
  {
    && CoursesLinked(s.courses.rows, s.users.rows)
    && LessonsLinked(s.lessons.rows, s.courses.rows)
    && EnrollmentsLinked(s.enrollments.rows, s.users.rows, s.courses.rows)
    && ReviewsLinked(s.reviews.rows, s.users.rows, s.courses.rows)
    && QuizzesLinked(s.quizzes.rows, s.courses.rows)
    && QuestionsLinked(s.questions.rows, s.quizzes.rows)
    && AnswersLinked(s.answers.rows, s.users.rows, s.questions.rows)
  }

  /** No two users share an email or a username. */
  predicate UniqueUsers(users: map<Id, User>)
  {
    forall u, v :: u in users && v in users && u != v ==>
      users[u].email != users[v].email && users[u].username != users[v].username
  }

  /** Every stored user is a row the user table of `schema` can hold. */
  predicate UsersConform(schema: UserSchema, users: map<Id, User>)
  {
    forall id :: id in users ==> Conforms(schema, users[id])
  }

  /** The invariant every operation keeps. */
  predicate Valid(s: Store)
  {
    TablesOk(s) && RefIntegrity(s) && UniqueUsers(s.users.rows)
  }

  /** From `s` to `s'` every table evolves and every creation stamp of a row
      present in both is unchanged. */
  predicate Evolves(s: Store, s': Store)
  {
    && TableEvolves(s.users, s'.users) && TableEvolves(s.courses, s'.courses)
    && TableEvolves(s.lessons, s'.lessons) && TableEvolves(s.enrollments, s'.enrollments)
    && TableEvolves(s.reviews, s'.reviews) && TableEvolves(s.quizzes, s'.quizzes)
    && TableEvolves(s.questions, s'.questions) && TableEvolves(s.answers, s'.answers)
    && (forall e :: e in s.enrollments.rows && e in s'.enrollments.rows ==>
          s'.enrollments.rows[e].enrollmentDate == s.enrollments.rows[e].enrollmentDate)
    && (forall v :: v in s.reviews.rows && v in s'.reviews.rows ==>
          s'.reviews.rows[v].date == s.reviews.rows[v].date)
    && (forall a :: a in s.answers.rows && a in s'.answers.rows ==>
          s'.answers.rows[a].submissionDate == s.answers.rows[a].submissionDate)
  }

  /** The unique user columns that `email` and `username` would collide on
      among the users other than `self` (pass `None` for a new row). */
  function Clashes(users: map<Id, User>, self: Option<Id>, email: string, username: string): set<string>
  {
    (if exists u :: u in users && Some(u) != self && users[u].email == email then {"email"} else {})
    + (if exists u :: u in users && Some(u) != self && users[u].username == username then {"username"} else {})
  }

  /** Saves a new user row; the database refuses a duplicate email or username. */
  function SaveUser(s: Store, u: User): (r: Result<(Store, Id)>)
    ensures r.Ok? <==> forall v :: v in s.users.rows ==>
                         s.users.rows[v].email != u.email && s.users.rows[v].username != u.username
    ensures r.Err? ==> r.error.NotUnique? && r.error.fields != {}
    ensures r.Err? ==> ("email" in r.error.fields <==>
                          exists v :: v in s.users.rows && s.users.rows[v].email == u.email)
    ensures r.Err? ==> ("username" in r.error.fields <==>
                          exists v :: v in s.users.rows && s.users.rows[v].username == u.username)
    ensures r.Err? ==> r.error.fields <= {"email", "username"}
    ensures r.Ok? ==> r.value.0 == s.(users := r.value.0.users)
    ensures r.Ok? && Valid(s) ==>
              Inserted(s.users, r.value.0.users, r.value.1, u) && Valid(r.value.0) && Evolves(s, r.value.0)
  {
    var clash := Clashes(s.users.rows, None, u.email, u.username);
    if clash != {} then Err(NotUnique(clash))
    else
      var (t, id) := Add(s.users, u);
      Ok((s.(users := t), id))
  }

  /** Saves the instance `u` over user `id`; the new email and username must
      not belong to any other user. Only the columns of `schema` are written. */
  function UpdateUser(schema: UserSchema, s: Store, id: Id, u: User): (r: Result<Store>)
    ensures r.Ok? <==> id in s.users.rows && forall v :: v in s.users.rows && v != id ==>
                         s.users.rows[v].email != u.email && s.users.rows[v].username != u.username
    ensures id !in s.users.rows ==> r == Err(NotFound)
    ensures r.Err? && id in s.users.rows ==> r.error.NotUnique? && r.error.fields <= {"email", "username"}
    ensures r.Err? && id in s.users.rows ==>
              ("email" in r.error.fields <==>
                 exists v :: v in s.users.rows && v != id && s.users.rows[v].email == u.email)
              && ("username" in r.error.fields <==>
                    exists v :: v in s.users.rows && v != id && s.users.rows[v].username == u.username)
    ensures r.Ok? ==> r.value.users.rows == s.users.rows[id := AsStored(schema, u)]
                      && r.value.users.next == s.users.next
                      && r.value == s.(users := r.value.users)
    ensures r.Ok? && Valid(s) ==> Valid(r.value) && Evolves(s, r.value)
    ensures r.Ok? && UsersConform(schema, s.users.rows) ==> UsersConform(schema, r.value.users.rows)
  {
    if id !in s.users.rows then Err(NotFound)
    else
      var clash := Clashes(s.users.rows, Some(id), u.email, u.username);
      if clash != {} then Err(NotUnique(clash))
      else Ok(s.(users := Put(s.users, id, AsStored(schema, u))))
  }

  /** Of two foreign-key fields, the names of those whose target is absent. */
  function Missing(first: string, firstFound: bool, second: string, secondFound: bool): set<string>
  {
    (if firstFound then {} else {first}) + (if secondFound then {} else {second})
  }

  function InsertCourse(s: Store, c: Course): (r: Result<(Store, Id)>)
    ensures r.Ok? <==> c.instructor in s.users.rows
    ensures r.Err? ==> r.error == MissingParent({"instructor"})
    ensures r.Ok? ==> r.value.0 == s.(courses := r.value.0.courses)
    ensures r.Ok? && Valid(s) ==>
              Inserted(s.courses, r.value.0.courses, r.value.1, c) && Valid(r.value.0) && Evolves(s, r.value.0)
  {
    if c.instructor !in s.users.rows then Err(MissingParent({"instructor"}))
    else
      var (t, id) := Add(s.courses, c);
      Ok((s.(courses := t), id))
  }

  function InsertLesson(s: Store, l: Lesson): (r: Result<(Store, Id)>)
    ensures r.Ok? <==> l.course in s.courses.rows
    ensures r.Err? ==> r.error == MissingParent({"course"})
    ensures r.Ok? ==> r.value.0 == s.(lessons := r.value.0.lessons)
    ensures r.Ok? && Valid(s) ==>
              Inserted(s.lessons, r.value.0.lessons, r.value.1, l) && Valid(r.value.0) && Evolves(s, r.value.0)
  {
    if l.course !in s.courses.rows then Err(MissingParent({"course"}))
    else
      var (t, id) := Add(s.lessons, l);
      Ok((s.(lessons := t), id))
  }

  /** Inserts an enrollment stamped with `now`; `completion_status` defaults to false. */
  function InsertEnrollment(s: Store, user: Id, course: Id, completionStatus: Option<bool>,
                            grade: Option<Cents>, now: Timestamp): (r: Result<(Store, Id)>)
    ensures r.Ok? <==> user in s.users.rows && course in s.courses.rows
    ensures r.Err? ==> r.error.MissingParent?
                       && ("user" in r.error.fields <==> user !in s.users.rows)
                       && ("course" in r.error.fields <==> course !in s.courses.rows)
                       && r.error.fields <= {"user", "course"}
    ensures r.Ok? ==> r.value.0 == s.(enrollments := r.value.0.enrollments)
    ensures r.Ok? && Valid(s) ==>
              var e := Enrollment(user, course, now, completionStatus == Some(true), grade);
              Inserted(s.enrollments, r.value.0.enrollments, r.value.1, e)
              && Valid(r.value.0) && Evolves(s, r.value.0)
  {
    var missing := Missing("user", user in s.users.rows, "course", course in s.courses.rows);
    if missing != {} then Err(MissingParent(missing))
    else
      var done := match completionStatus case Some(b) => b case None => false;
      var (t, id) := Add(s.enrollments, Enrollment(user, course, now, done, grade));
      Ok((s.(enrollments := t), id))
  }

  /** Inserts a review stamped with `now`. */
  function InsertReview(s: Store, user: Id, course: Id, rating: nat, comment: string,
                        now: Timestamp): (r: Result<(Store, Id)>)
    ensures r.Ok? <==> user in s.users.rows && course in s.courses.rows
    ensures r.Err? ==> r.error.MissingParent?
                       && ("user" in r.error.fields <==> user !in s.users.rows)
                       && ("course" in r.error.fields <==> course !in s.courses.rows)
                       && r.error.fields <= {"user", "course"}
    ensures r.Ok? ==> r.value.0 == s.(reviews := r.value.0.reviews)
    ensures r.Ok? && Valid(s) ==>
              Inserted(s.reviews, r.value.0.reviews, r.value.1, Review(user, course, rating, comment, now))
              && Valid(r.value.0) && Evolves(s, r.value.0)
  {
    var missing := Missing("user", user in s.users.rows, "course", course in s.courses.rows);
    if missing != {} then Err(MissingParent(missing))
    else
      var (t, id) := Add(s.reviews, Review(user, course, rating, comment, now));
      Ok((s.(reviews := t), id))
  }

  function InsertQuiz(s: Store, z: Quiz): (r: Result<(Store, Id)>)
    ensures r.Ok? <==> z.course in s.courses.rows
    ensures r.Err? ==> r.error == MissingParent({"course"})
    ensures r.Ok? ==> r.value.0 == s.(quizzes := r.value.0.quizzes)
    ensures r.Ok? && Valid(s) ==>
              Inserted(s.quizzes, r.value.0.quizzes, r.value.1, z) && Valid(r.value.0) && Evolves(s, r.value.0)
  {
    if z.course !in s.courses.rows then Err(MissingParent({"course"}))
    else
      var (t, id) := Add(s.quizzes, z);
      Ok((s.(quizzes := t), id))
  }

  function InsertQuestion(s: Store, q: Question): (r: Result<(Store, Id)>)
    ensures r.Ok? <==> q.quiz in s.quizzes.rows
    ensures r.Err? ==> r.error == MissingParent({"quiz"})
    ensures r.Ok? ==> r.value.0 == s.(questions := r.value.0.questions)
    ensures r.Ok? && Valid(s) ==>
              Inserted(s.questions, r.value.0.questions, r.value.1, q) && Valid(r.value.0) && Evolves(s, r.value.0)
  {
    if q.quiz !in s.quizzes.rows then Err(MissingParent({"quiz"}))
    else
      var (t, id) := Add(s.questions, q);
      Ok((s.(questions := t), id))
  }

  /** Inserts an answer stamped with `now`. */
  function InsertAnswer(s: Store, user: Id, question: Id, response: string,
                        now: Timestamp): (r: Result<(Store, Id)>)
    ensures r.Ok? <==> user in s.users.rows && question in s.questions.rows
    ensures r.Err? ==> r.error.MissingParent?
                       && ("user" in r.error.fields <==> user !in s.users.rows)
                       && ("question" in r.error.fields <==> question !in s.questions.rows)
                       && r.error.fields <= {"user", "question"}
    ensures r.Ok? ==> r.value.0 == s.(answers := r.value.0.answers)
    ensures r.Ok? && Valid(s) ==>
              Inserted(s.answers, r.value.0.answers, r.value.1, Answer(user, question, response, now))
              && Valid(r.value.0) && Evolves(s, r.value.0)
  {
    var missing := Missing("user", user in s.users.rows, "question", question in s.questions.rows);
    if missing != {} then Err(MissingParent(missing))
    else
      var (t, id) := Add(s.answers, Answer(user, question, response, now));
      Ok((s.(answers := t), id))
  }

  function UpdateCourse(s: Store, id: Id, c: Course): (r: Result<Store>)
    ensures r.Ok? <==> id in s.courses.rows && c.instructor in s.users.rows
    ensures id !in s.courses.rows ==> r == Err(NotFound)
    ensures r.Err? && id in s.courses.rows ==> r.error == MissingParent({"instructor"})
    ensures r.Ok? ==> r.value.courses.rows == s.courses.rows[id := c] && r.value == s.(courses := r.value.courses)
                      && r.value.courses.next == s.courses.next
    ensures r.Ok? && Valid(s) ==> Valid(r.value) && Evolves(s, r.value)
  {
    if id !in s.courses.rows then Err(NotFound)
    else if c.instructor !in s.users.rows then Err(MissingParent({"instructor"}))
    else Ok(s.(courses := Put(s.courses, id, c)))
  }

  function UpdateLesson(s: Store, id: Id, l: Lesson): (r: Result<Store>)
    ensures r.Ok? <==> id in s.lessons.rows && l.course in s.courses.rows
    ensures id !in s.lessons.rows ==> r == Err(NotFound)
    ensures r.Err? && id in s.lessons.rows ==> r.error == MissingParent({"course"})
    ensures r.Ok? ==> r.value.lessons.rows == s.lessons.rows[id := l] && r.value == s.(lessons := r.value.lessons)
                      && r.value.lessons.next == s.lessons.next
    ensures r.Ok? && Valid(s) ==> Valid(r.value) && Evolves(s, r.value)
  {
    if id !in s.lessons.rows then Err(NotFound)
    else if l.course !in s.courses.rows then Err(MissingParent({"course"}))
    else Ok(s.(lessons := Put(s.lessons, id, l)))
  }

  /** Rewrites the editable fields of an enrollment; its `enrollment_date` is kept. */
  function UpdateEnrollment(s: Store, id: Id, user: Id, course: Id, completionStatus: bool,
                            grade: Option<Cents>): (r: Result<Store>)
    ensures r.Ok? <==> id in s.enrollments.rows && user in s.users.rows && course in s.courses.rows
    ensures id !in s.enrollments.rows ==> r == Err(NotFound)
    ensures r.Err? && id in s.enrollments.rows ==>
              && r.error.MissingParent? && r.error.fields <= {"user", "course"}
              && ("user" in r.error.fields <==> user !in s.users.rows)
              && ("course" in r.error.fields <==> course !in s.courses.rows)
    ensures r.Ok? ==>
              && r.value == s.(enrollments := r.value.enrollments)
              && r.value.enrollments.next == s.enrollments.next
              && r.value.enrollments.rows == s.enrollments.rows[id :=
                   Enrollment(user, course, s.enrollments.rows[id].enrollmentDate, completionStatus, grade)]
    ensures r.Ok? && Valid(s) ==> Valid(r.value) && Evolves(s, r.value)
  {
    if id !in s.enrollments.rows then Err(NotFound)
    else
      var missing := Missing("user", user in s.users.rows, "course", course in s.courses.rows);
      if missing != {} then Err(MissingParent(missing))
      else
        var e := s.enrollments.rows[id].(user := user, course := course,
                                         completionStatus := completionStatus, grade := grade);
        PutEnrollmentKeepsInvariant(s, id, e);
        PutEnrollmentEvolves(s, id, e);
        Ok(s.(enrollments := Put(s.enrollments, id, e)))
  }

  /** Rewrites the editable fields of a review; its `date` is kept. */
  function UpdateReview(s: Store, id: Id, user: Id, course: Id, rating: nat,
                        comment: string): (r: Result<Store>)
    ensures r.Ok? <==> id in s.reviews.rows && user in s.users.rows && course in s.courses.rows
    ensures id !in s.reviews.rows ==> r == Err(NotFound)
    ensures r.Err? && id in s.reviews.rows ==>
              && r.error.MissingParent? && r.error.fields <= {"user", "course"}
              && ("user" in r.error.fields <==> user !in s.users.rows)
              && ("course" in r.error.fields <==> course !in s.courses.rows)
    ensures r.Ok? ==>
              && r.value == s.(reviews := r.value.reviews)
              && r.value.reviews.next == s.reviews.next
              && r.value.reviews.rows == s.reviews.rows[id :=
                   Review(user, course, rating, comment, s.reviews.rows[id].date)]
    ensures r.Ok? && Valid(s) ==> Valid(r.value) && Evolves(s, r.value)
  {
    if id !in s.reviews.rows then Err(NotFound)
    else
      var missing := Missing("user", user in s.users.rows, "course", course in s.courses.rows);
      if missing != {} then Err(MissingParent(missing))
      else
        var v := s.reviews.rows[id].(user := user, course := course, rating := rating, comment := comment);
        PutReviewKeepsInvariant(s, id, v);
        PutReviewEvolves(s, id, v);
        Ok(s.(reviews := Put(s.reviews, id, v)))
  }

  function UpdateQuiz(s: Store, id: Id, z: Quiz): (r: Result<Store>)
    ensures r.Ok? <==> id in s.quizzes.rows && z.course in s.courses.rows
    ensures id !in s.quizzes.rows ==> r == Err(NotFound)
    ensures r.Err? && id in s.quizzes.rows ==> r.error == MissingParent({"course"})
    ensures r.Ok? ==> r.value.quizzes.rows == s.quizzes.rows[id := z] && r.value == s.(quizzes := r.value.quizzes)
                      && r.value.quizzes.next == s.quizzes.next
    ensures r.Ok? && Valid(s) ==> Valid(r.value) && Evolves(s, r.value)
  {
    if id !in s.quizzes.rows then Err(NotFound)
    else if z.course !in s.courses.rows then Err(MissingParent({"course"}))
    else Ok(s.(quizzes := Put(s.quizzes, id, z)))
  }

  function UpdateQuestion(s: Store, id: Id, q: Question): (r: Result<Store>)
    ensures r.Ok? <==> id in s.questions.rows && q.quiz in s.quizzes.rows
    ensures id !in s.questions.rows ==> r == Err(NotFound)
    ensures r.Err? && id in s.questions.rows ==> r.error == MissingParent({"quiz"})
    ensures r.Ok? ==> r.value.questions.rows == s.questions.rows[id := q]
                      && r.value == s.(questions := r.value.questions)
                      && r.value.questions.next == s.questions.next
    ensures r.Ok? && Valid(s) ==> Valid(r.value) && Evolves(s, r.value)
  {
    if id !in s.questions.rows then Err(NotFound)
    else if q.quiz !in s.quizzes.rows then Err(MissingParent({"quiz"}))
    else Ok(s.(questions := Put(s.questions, id, q)))
  }

  /** Rewrites the editable fields of an answer; its `submission_date` is kept. */
  function UpdateAnswer(s: Store, id: Id, user: Id, question: Id, response: string): (r: Result<Store>)
    ensures r.Ok? <==> id in s.answers.rows && user in s.users.rows && question in s.questions.rows
    ensures id !in s.answers.rows ==> r == Err(NotFound)
    ensures r.Err? && id in s.answers.rows ==>
              && r.error.MissingParent? && r.error.fields <= {"user", "question"}
              && ("user" in r.error.fields <==> user !in s.users.rows)
              && ("question" in r.error.fields <==> question !in s.questions.rows)
    ensures r.Ok? ==>
              && r.value == s.(answers := r.value.answers)
              && r.value.answers.next == s.answers.next
              && r.value.answers.rows == s.answers.rows[id :=
                   Answer(user, question, response, s.answers.rows[id].submissionDate)]
    ensures r.Ok? && Valid(s) ==> Valid(r.value) && Evolves(s, r.value)
  {
    if id !in s.answers.rows then Err(NotFound)
    else
      var missing := Missing("user", user in s.users.rows, "question", question in s.questions.rows);
      if missing != {} then Err(MissingParent(missing))
      else
        var a := s.answers.rows[id].(user := user, question := question, response := response);
        PutAnswerKeepsInvariant(s, id, a);
        PutAnswerEvolves(s, id, a);
        Ok(s.(answers := Put(s.answers, id, a)))
  }

  /** Rewriting an enrollment whose parents exist keeps the invariant. */
  lemma PutEnrollmentKeepsInvariant(s: Store, id: Id, e: Enrollment)
    requires id in s.enrollments.rows && e.user in s.users.rows && e.course in s.courses.rows
    ensures Valid(s) ==> Valid(s.(enrollments := Put(s.enrollments, id, e)))
  {
  }

  /** Rewriting an enrollment while keeping its creation stamp is an evolution of the store. */
  lemma PutEnrollmentEvolves(s: Store, id: Id, e: Enrollment)
    requires id in s.enrollments.rows && e.enrollmentDate == s.enrollments.rows[id].enrollmentDate
    ensures TablesOk(s) ==> Evolves(s, s.(enrollments := Put(s.enrollments, id, e)))
  {
  }

  /** Rewriting a review whose parents exist keeps the invariant. */
  lemma PutReviewKeepsInvariant(s: Store, id: Id, v: Review)
    requires id in s.reviews.rows && v.user in s.users.rows && v.course in s.courses.rows
    ensures Valid(s) ==> Valid(s.(reviews := Put(s.reviews, id, v)))
  {
  }

  /** Rewriting a review while keeping its creation stamp is an evolution of the store. */
  lemma PutReviewEvolves(s: Store, id: Id, v: Review)
    requires id in s.reviews.rows && v.date == s.reviews.rows[id].date
    ensures TablesOk(s) ==> Evolves(s, s.(reviews := Put(s.reviews, id, v)))
  {
  }

  /** Rewriting an answer whose parents exist keeps the invariant. */
  lemma PutAnswerKeepsInvariant(s: Store, id: Id, a: Answer)
    requires id in s.answers.rows && a.user in s.users.rows && a.question in s.questions.rows
    ensures Valid(s) ==> Valid(s.(answers := Put(s.answers, id, a)))
  {
  }

  /** Rewriting an answer while keeping its creation stamp is an evolution of the store. */
  lemma PutAnswerEvolves(s: Store, id: Id, a: Answer)
    requires id in s.answers.rows && a.submissionDate == s.answers.rows[id].submissionDate
    ensures TablesOk(s) ==> Evolves(s, s.(answers := Put(s.answers, id, a)))
  {
  }

  /** The empty store satisfies the invariant. */
  lemma EmptyIsValid()
    ensures Valid(Empty)
  {
  }
}

=== FILE: usermanager.dfy ===
/**
  `CustomUserManager`: the validated constructors `create_user` and
  `create_superuser`, and the model constructor they go through.

  Extra keyword arguments are a map from field name to value. The model
  constructor accepts only names the `User` model declares; `UserSchema`
  says whether that includes an `is_superuser` field. As declared, it does
  not (the model extends only the base user class), so `create_superuser`
  can never get a row stored; `WithSuperuserField` is the evidently intended
  schema, in which it can.
 */
module UserManager {
  import opened Entities
  import opened Tables

  /** Declared `User` fields that the model stores and that extra arguments may set. */
  const StoredExtras: set<string> :=
    {"first_name", "last_name", "date_of_birth", "role", "is_active", "is_staff"}

  /** Declared fields the constructor accepts but this model does not store
      (the picture upload and the base class's last-login stamp). */
  const IgnoredExtras: set<string> := {"profile_picture", "last_login"}

  /** The keyword names the model constructor accepts besides email and username. */
  function AcceptedExtras(schema: UserSchema): set<string>
  {
    StoredExtras + IgnoredExtras + (if schema == WithSuperuserField then {"is_superuser"} else {})
  }

  /** Whether `v` is a value of the kind field `name` stores. */
  predicate KindFits(name: string, v: Value)
  {
    if name == "first_name" || name == "last_name" then v.TextValue?
    else if name == "date_of_birth" then v.DateValue?
    else if name == "role" then v.RoleValue? || v.TextValue?
    else if name == "is_active" || name == "is_staff" || name == "is_superuser" then v.BoolValue?
    else true
  }

  function Unexpected(schema: UserSchema, extras: map<string, Value>): set<string>
  {
    set n | n in extras && n !in AcceptedExtras(schema)
  }

  function Misfits(extras: map<string, Value>): set<string>
  {
    set n | n in extras && !KindFits(n, extras[n])
  }

  lemma FitsWhenNoMisfits(extras: map<string, Value>)
    requires Misfits(extras) == {}
    ensures forall n :: n in extras ==> KindFits(n, extras[n])
  {
    forall n | n in extras
      ensures KindFits(n, extras[n])
    {
      assert n !in Misfits(extras);
    }
  }

  /** `set_password`: a missing password leaves the account without a usable one. */
  function SetPassword(password: Option<string>): (p: Password)
    ensures p.Unusable? <==> password.None?
    ensures password.Some? ==> p.plain == password.value
  {
    match password
    case None => Unusable
    case Some(raw) => HashOf(raw)
  }

  /** The field of `extras` named `name`, or `default` when the caller left it out. */
  function TextOr(extras: map<string, Value>, name: string, default: string): string
  {
    if name in extras && extras[name].TextValue? then extras[name].s else default
  }

  /** The column text a `role` value is saved as: a choice is saved as its
      stored value, a text as itself. */
  function RoleColumn(v: Value): string
  {
    match v
    case RoleValue(r) => RoleText(r)
    case TextValue(t) => t
    case _ => "student"
  }

  function BoolOr(extras: map<string, Value>, name: string, default: bool): bool
  {
    if name in extras && extras[name].BoolValue? then extras[name].b else default
  }

  /** `u` is the row the caller asked for: email and username as given, each
      extra field as supplied, and otherwise the field's declared default. */
  predicate Describes(u: User, email: string, username: string, password: Option<string>,
                      extras: map<string, Value>)
  {
    && u.email == email && u.username == username
    && (password.None? ==> u.password == Unusable)
    && (password.Some? ==> u.password == HashOf(password.value))
    && ("first_name" in extras ==> extras["first_name"] == TextValue(u.firstName))
    && ("first_name" !in extras ==> u.firstName == "")
    && ("last_name" in extras ==> extras["last_name"] == TextValue(u.lastName))
    && ("last_name" !in extras ==> u.lastName == "")
    && "date_of_birth" in extras && extras["date_of_birth"] == DateValue(u.dateOfBirth)
    && CanonicalRole(u.role)
    && ("role" in extras ==> RoleText(u.role) == RoleColumn(extras["role"]))
    && ("role" !in extras ==> u.role == Student)
    && ("is_active" in extras ==> extras["is_active"] == BoolValue(u.isActive))
    && ("is_active" !in extras ==> u.isActive)
    && ("is_staff" in extras ==> extras["is_staff"] == BoolValue(u.isStaff))
    && ("is_staff" !in extras ==> !u.isStaff)
    && ("is_superuser" in extras ==> extras["is_superuser"] == BoolValue(u.isSuperuser))
    && ("is_superuser" !in extras ==> !u.isSuperuser)
  }

  /** The model constructor followed by `set_password`: refuses keyword names
      that are no field of the schema and values of the wrong kind, and leaves
      the non-nullable `date_of_birth` to be supplied. */
  function BuildUser(schema: UserSchema, email: string, username: string, password: Option<string>,
                     extras: map<string, Value>): (r: Result<User>)
    ensures r.Ok? <==> Unexpected(schema, extras) == {} && Misfits(extras) == {}
                       && "date_of_birth" in extras
    ensures r.Ok? ==> Describes(r.value, email, username, password, extras)
    ensures r.Ok? ==> Conforms(schema, r.value)
    ensures r.Err? && Unexpected(schema, extras) != {} ==> r.error == UnexpectedKeywords(Unexpected(schema, extras))
  {
    var unexpected := Unexpected(schema, extras);
    var misfits := Misfits(extras);
    if unexpected != {} then Err(UnexpectedKeywords(unexpected))
    else if misfits != {} then Err(InvalidValues(misfits))
    else if "date_of_birth" !in extras then Err(NotNull("date_of_birth"))
    else
      FitsWhenNoMisfits(extras);
      assert schema == AsDeclared ==> "is_superuser" !in Unexpected(schema, extras);
      var role := if "role" in extras then RoleOfText(RoleColumn(extras["role"])) else Student;
      Ok(User(
        username := username,
        email := email,
        password := SetPassword(password),
        firstName := TextOr(extras, "first_name", ""),
        lastName := TextOr(extras, "last_name", ""),
        dateOfBirth := extras["date_of_birth"].date,
        role := role,
        isActive := BoolOr(extras, "is_active", true),
        isStaff := BoolOr(extras, "is_staff", false),
        isSuperuser := BoolOr(extras, "is_superuser", false)))
  }

  /** Python truthiness of the email argument: absent and empty are both false. */
  predicate Falsy(email: Option<string>)
  {
    email.None? || email.value == ""
  }

  /** `create_user`: refuses a falsy email, builds the row and saves it. */
  function CreateUser(schema: UserSchema, s: Store, email: Option<string>, username: string,
                      password: Option<string>, extras: map<string, Value>): (r: Result<(Store, Id)>)
    ensures Falsy(email) ==> r == Err(EmailRequired)
    ensures r.Ok? <==>
              && !Falsy(email)
              && Unexpected(schema, extras) == {} && Misfits(extras) == {} && "date_of_birth" in extras
              && forall v :: v in s.users.rows ==>
                   s.users.rows[v].email != email.value && s.users.rows[v].username != username
    ensures r.Ok? ==>
              var (s', id) := r.value;
              && s' == s.(users := s'.users)
              && id in s'.users.rows
              && s'.users.rows.Keys == s.users.rows.Keys + {id}
              && Describes(s'.users.rows[id], email.value, username, password, extras)
              && Conforms(schema, s'.users.rows[id])
    ensures r.Ok? && TableOk(s.users) ==>
              && r.value.1 !in s.users.rows
              && r.value.0.users.rows == s.users.rows[r.value.1 := r.value.0.users.rows[r.value.1]]
    ensures r.Ok? && UsersConform(schema, s.users.rows) ==> UsersConform(schema, r.value.0.users.rows)
    ensures r.Ok? && Valid(s) ==>
              r.value.1 !in s.users.rows && Valid(r.value.0) && Evolves(s, r.value.0)
    ensures r.Err? && !Falsy(email) && Unexpected(schema, extras) != {} ==>
              r.error == UnexpectedKeywords(Unexpected(schema, extras))
  {
    if Falsy(email) then Err(EmailRequired)
    else
      match BuildUser(schema, email.value, username, password, extras)
      case Err(e) => Err(e)
      case Ok(u) => SaveUser(s, u)
  }

  /** `setdefault`: keeps a value the caller gave, otherwise stores `v`. */
  function SetDefault(extras: map<string, Value>, name: string, v: Value): (r: map<string, Value>)
    ensures r.Keys == extras.Keys + {name}
    ensures name in extras ==> r[name] == extras[name]
    ensures name !in extras ==> r[name] == v
    ensures forall n :: n in extras && n != name ==> r[n] == extras[n]
  {
    if name in extras then extras else extras[name := v]
  }

  /** The extra fields `create_superuser` hands on: both flags default to `True`. */
  function SuperuserExtras(extras: map<string, Value>): map<string, Value>
  {
    SetDefault(SetDefault(extras, "is_staff", BoolValue(true)), "is_superuser", BoolValue(true))
  }

  /** `create_superuser`: defaults both flags to `True`, refuses either flag
      being anything but the boolean `True`, then delegates to `create_user`. */
  function CreateSuperuser(schema: UserSchema, s: Store, email: Option<string>, username: string,
                           password: Option<string>, extras: map<string, Value>): (r: Result<(Store, Id)>)
    ensures "is_staff" in extras && extras["is_staff"] != BoolValue(true) ==> r == Err(StaffFlagRequired)
    ensures ("is_staff" !in extras || extras["is_staff"] == BoolValue(true))
            && "is_superuser" in extras && extras["is_superuser"] != BoolValue(true)
            ==> r == Err(SuperuserFlagRequired)
    ensures r.Ok? ==>
              var (s', id) := r.value;
              && s' == s.(users := s'.users)
              && id in s'.users.rows
              && s'.users.rows[id].isStaff && s'.users.rows[id].isSuperuser
    ensures r.Ok? && TableOk(s.users) ==>
              && r.value.1 !in s.users.rows
              && r.value.0.users.rows == s.users.rows[r.value.1 := r.value.0.users.rows[r.value.1]]
    ensures r.Ok? && UsersConform(schema, s.users.rows) ==> UsersConform(schema, r.value.0.users.rows)
    ensures r.Ok? && Valid(s) ==>
              r.value.1 !in s.users.rows && Valid(r.value.0) && Evolves(s, r.value.0)
  {
    var ex := SuperuserExtras(extras);
    if ex["is_staff"] != BoolValue(true) then Err(StaffFlagRequired)
    else if ex["is_superuser"] != BoolValue(true) then Err(SuperuserFlagRequired)
    else CreateUser(schema, s, email, username, password, ex)
  }

  /** A user created with no overriding extra fields is an active, non-staff student. */
  lemma CreateUserDefaults(schema: UserSchema, s: Store, email: Option<string>, username: string,
                           password: Option<string>, dateOfBirth: Date)
    ensures var r := CreateUser(schema, s, email, username, password, map["date_of_birth" := DateValue(dateOfBirth)]);
            r.Ok? ==>
              var u := r.value.0.users.rows[r.value.1];
              && u.role == Student && u.isActive && !u.isStaff && !u.isSuperuser
              && u.firstName == "" && u.lastName == "" && u.dateOfBirth == dateOfBirth
  {
  }

  /** `choices` are not checked on save: a `role` text outside `User.ROLES` is
      stored as given, and a text naming a choice reads back as that choice. */
  lemma TextRoleStored(schema: UserSchema, email: string, username: string, password: Option<string>,
                       dateOfBirth: Date, t: string)
    ensures var r := BuildUser(schema, email, username, password,
                               map["date_of_birth" := DateValue(dateOfBirth), "role" := TextValue(t)]);
            && r.Ok?
            && RoleText(r.value.role) == t
            && (t !in RoleChoices ==> r.value.role == Unlisted(t))
            && r.value.role == RoleOfText(t)
            && (t in RoleChoices ==> !r.value.role.Unlisted?)
  {
  }

  /** Once both flags pass, `create_superuser` inherits `create_user`'s
      refusal of a falsy email. */
  lemma SuperuserNeedsEmail(schema: UserSchema, s: Store, email: Option<string>, username: string,
                            password: Option<string>, extras: map<string, Value>)
    requires Falsy(email)
    requires "is_staff" !in extras || extras["is_staff"] == BoolValue(true)
    requires "is_superuser" !in extras || extras["is_superuser"] == BoolValue(true)
    ensures CreateSuperuser(schema, s, email, username, password, extras) == Err(EmailRequired)
  {
  }

  /** As declared, the `User` model has no `is_superuser` field, so the flag
      `create_superuser` always passes on is refused by the model constructor:
      no call ever stores a superuser. */
  lemma SuperuserAsDeclaredNeverStored(s: Store, email: Option<string>, username: string,
                                       password: Option<string>, extras: map<string, Value>)
    ensures CreateSuperuser(AsDeclared, s, email, username, password, extras).Err?
    ensures var r := CreateSuperuser(AsDeclared, s, email, username, password, extras);
            !Falsy(email) && r != Err(StaffFlagRequired) && r != Err(SuperuserFlagRequired) ==>
              r.error.UnexpectedKeywords? && "is_superuser" in r.error.names
  {
  }

  /** With the intended schema, `create_superuser` stores a row for every
      valid request, carrying the defaulted flags and the requested fields. */
  lemma SuperuserWithFieldStored(s: Store, email: Option<string>, username: string,
                                 password: Option<string>, extras: map<string, Value>)
    requires !Falsy(email)
    requires "is_staff" !in extras || extras["is_staff"] == BoolValue(true)
    requires "is_superuser" !in extras || extras["is_superuser"] == BoolValue(true)
    requires Unexpected(WithSuperuserField, extras) == {} && Misfits(extras) == {}
    requires "date_of_birth" in extras
    requires forall v :: v in s.users.rows ==>
               s.users.rows[v].email != email.value && s.users.rows[v].username != username
    ensures var r := CreateSuperuser(WithSuperuserField, s, email, username, password, extras);
            && r.Ok?
            && Describes(r.value.0.users.rows[r.value.1], email.value, username, password, SuperuserExtras(extras))
            && r.value.0.users.rows[r.value.1].isStaff && r.value.0.users.rows[r.value.1].isSuperuser
  {
  }
}
